=== FILE: README.md ===
# Typeahead interaction state machine in Dafny

This project models the interaction core of the `Typeahead` React component of
react-typeahead-component: a single-line input with an inline completion hint
and a list of suggested options. Everything the component decides is lifted into
pure transitions. Each event handler takes the parent's props, the state before
the event and the event, and returns a `Step`: the committed state plus the
ordered list of effects the handler causes.

- `TypeaheadState` (`state.dfy`) holds the data model.
  - `Props` holds the held input value, the options, the hover-select switch, whether an
    input ref is attached (`hasInputRef`, see below) and the two collaborators (hint
    resolver, text-direction detector) as uninterpreted function values.
  - `State` holds the selection index, hint and dropdown visibility, the last typed text
    and the saved input value.
  - `Effect` lists the caller callbacks plus the host requests: suppress default, focus the
    input, scroll the list.
  - It also holds the state primitives `showDropdown`, `hideDropdown`, `showHint`,
    `hideHint` and `setSelectedIndex`.
- `Navigation` (`navigation.dfy`) holds the wrap-around index arithmetic of `navigate`.
- `Hint` (`hint.dfy`) holds the hint-visibility rule.
- `Typeahead` (`typeahead.dfy`) holds every handler, the post-navigation step with its
  scroll-into-view rule, and per-key properties of the keyboard dispatch.
- `Session` (`session.dfy`) dispatches events and runs sequences of them under fixed
  props. It proves invariants across runs: the selection stays in range, a visible hint
  obeys the hint rule, a saved input value is never lost, and the open/close callbacks
  alternate with the real visibility changes.

Effect order follows React's batching. Calls made while a handler runs come first,
in the order the handler makes them. The callbacks attached to a state update come
after the update commits: `onDropdownOpen`, `onDropdownClose` and the post-navigation
step. Every state read inside a handler sees the state before the event. Each primitive
writes a field of its own, so composing them in order gives exactly that.

The model keeps these behaviours of the code:
- `previousInputValue` is set to null on mount (components/typeahead.js:87). After that it is written only at line 428, and nothing ever clears it.
- Nothing reclamps the selection when the option list shrinks.
- `handleFocus` (components/typeahead.js:335-340) does not recompute the hint.
- Completing with a side arrow (components/typeahead.js:384-393) does not call `preventDefault`.
- The hint rule (components/typeahead.js:296-299) compares lengths only. It does not check that the hint starts with the input.
- `navigate` returns an index in -1 .. count-1 from any starting index, stale or not. `Navigation.Navigate` proves this without a precondition.

`handleChange` decides the hint from the held value `props.inputValue`, which is still the value before the edit (see Findings). `Typeahead.HandleChange` and `Session` keep this as written. `Typeahead.HandleChangeIntended` is the corrected handler.

`renderInput` (components/typeahead.js:162-187) attaches no ref to the editable field. So `this.refs.input` is defined only when the parent passes a ref named `input` through `inputProps`. The `Props.hasInputRef` field records whether it did.
- Without that ref, `focus()` does nothing (components/typeahead.js:330), so Enter and option clicks emit no `FocusInput`.
- Without that ref, a side arrow pressed with a visible hint and shift up calls `isCursorAtEnd` on undefined (components/typeahead.js:386). That throws: neither `onComplete` nor the generic `onKeyDown` runs, and the model emits `ThrowsTypeError`.

## Model

| member | source | states |
|---|---|---|
| Navigation.Navigate | components/typeahead.js:349-362 | from any starting index, one arrow step lands in the range -1 .. count-1 |
| Navigation.NavigateIsModular | components/typeahead.js:349-362 | from an index in range, one step is addition of ±1 modulo count+1 on the shifted position index+1 |
| Navigation.NavigateTimesIsModular | components/typeahead.js:349-362 | k presses of the same arrow add k·(±1) modulo count+1 to the shifted position |
| Navigation.DownFromNoSelection | components/typeahead.js:349-362 | repeated ArrowDown from no selection visits -1, 0, 1, …, count-1, -1, … (index k mod (count+1) minus 1) |
| Navigation.NavigatePeriod | components/typeahead.js:349-362 | count+1 presses of the same arrow return to the starting index |
| Navigation.NavigateInverse | components/typeahead.js:349-362 | ArrowUp undoes ArrowDown and vice versa on every index in range |
| Navigation.NavigateWrapPoints | components/typeahead.js:355-358 | Down from the last option gives -1; Up from -1 gives the last option |
| Navigation.ThreeOptionsScenario | components/typeahead.js:349-362 | with three options, ArrowDown from -1 gives 0, 1, 2, then -1 |
| Hint.SliceFrom | components/typeahead.js:299 | `slice(n)` has length max(0, len-n) and is the suffix after position n |
| Hint.IsHintVisible | components/typeahead.js:294-299 | the slice-based rule holds iff the input is non-empty and the hint is strictly longer than it |
| Hint.NoHintForEmptyInput | components/typeahead.js:296 | the hint is never visible for an empty input |
| Hint.VisibleHintExtendsInput | components/typeahead.js:296-299 | if the resolver's hint starts with the input, a visible hint is the input plus a non-empty completion |
| Hint.AppleScenario | components/typeahead.js:294-299 | input "ap" with hint "apple" shows the hint; input "apple" with hint "apple" does not |
| TypeaheadState.Lookup | components/typeahead.js:451 | indexing the options yields the option exactly for an index inside the list, otherwise undefined |
| TypeaheadState.ShowDropdown | components/typeahead.js:267-277 | opens the dropdown; onDropdownOpen fires iff it was closed; nothing else changes |
| TypeaheadState.HideDropdown | components/typeahead.js:279-289 | closes the dropdown; onDropdownClose fires iff it was open; nothing else changes |
| TypeaheadState.ShowHint | components/typeahead.js:291-304 | hint visible iff the held input is non-empty and the resolved hint is longer; nothing else changes |
| TypeaheadState.Initial | components/typeahead.js:73-87 | the mount state selects -1, shows neither hint nor dropdown, and has recorded no typed text and no saved input (the nulls at lines 86-87) |
| TypeaheadState.HideHint | components/typeahead.js:306-310 | the hint is hidden and nothing else changes |
| TypeaheadState.SetSelectedIndex | components/typeahead.js:312-316 | the selection becomes the given index, unchecked, and nothing else changes |
| TypeaheadState.HintAndSelectionWrites | components/typeahead.js:306-316 | hiding twice equals hiding once; the last index written wins; writing the current index is a no-op |
| TypeaheadState.DropdownIdempotent | components/typeahead.js:267-289 | a second open or a second close changes nothing and emits nothing |
| TypeaheadState.ShowThenHide | components/typeahead.js:267-289 | open then close from closed restores the state and emits exactly open, close |
| Typeahead.ScrollTarget | components/typeahead.js:436-439 | a row that is not fully visible is scrolled to its top, and a row within both the scroll offset and the dropdown's height is left alone; afterwards a row no taller than the list is fully visible |
| Typeahead.VisibleRowRescrolledInScrolledList | components/typeahead.js:436-439 | a row already fully visible in a list scrolled to 90 (top 100, height 20, dropdown 50) is scrolled to its top again, because the bottom edge ignores the scroll offset |
| Typeahead.AfterNavigate | components/typeahead.js:415-443 | saves the held input the first time an option is reached and never overwrites it; on an option the effects are exactly the scroll (when the rule scrolls) then onOptionChange with the option; at -1 exactly onOptionChange with the saved input |
| Typeahead.ActiveData | components/typeahead.js:449-451 | onKeyDown's value is the input text iff index < 0, the option iff the index is in the list, else undefined |
| Typeahead.IsForwardArrow | components/typeahead.js:389 | only a side arrow can be forward: ArrowRight iff the text is left-to-right, ArrowLeft iff it is right-to-left |
| Typeahead.ForwardArrowIsUnique | components/typeahead.js:387-389 | for ltr or rtl text exactly one side arrow completes; for any other direction neither does |
| Typeahead.HandleChange | components/typeahead.js:318-326 | typing resets the selection to -1, opens the dropdown, takes the hint from the held (pre-edit) value and records the typed text; the effects are exactly onChange followed by onDropdownOpen iff the dropdown was closed |
| Typeahead.HandleFocus | components/typeahead.js:335-340 | focus opens the dropdown and changes nothing else; the effects are exactly onFocus followed by onDropdownOpen iff the dropdown was closed |
| Typeahead.HandleClick | components/typeahead.js:342-347 | a click recomputes the hint only and forwards onInputClick |
| Typeahead.HandleKeyDown | components/typeahead.js:364-455 | only a navigation moves the selection and keeps it in range; onKeyDown fires iff no navigation happened and nothing threw, then with the active value and the pre-event index; the throw happens exactly in the missing-ref side-arrow case; a saved input is kept |
| Typeahead.HandleOptionClick | components/typeahead.js:457-466 | closes hint and dropdown and selects i; the effects are exactly a focus request iff the input ref is attached, onOptionClick with options[i] (undefined outside the list) and i, then onDropdownClose iff the dropdown was open |
| Typeahead.HandleOptionMouseOver | components/typeahead.js:468-474 | with hover-select the selection becomes i, otherwise nothing; visibility untouched, nothing emitted |
| Typeahead.HandleMouseOut | components/typeahead.js:476-482 | with hover-select the selection becomes -1, otherwise nothing; visibility untouched, nothing emitted |
| Typeahead.HandleWindowClose | components/typeahead.js:484-492 | an outside target closes hint and dropdown (close announced iff it was open); a window or inside target changes nothing |
| Typeahead.CompletionByEndOrTab | components/typeahead.js:377-383 | End/Tab leave the state unchanged; the effects are exactly preventDefault and onComplete(resolved hint) when the hint is visible and shift is up, then onKeyDown with the active value |
| Typeahead.CompletionOnlyByCompletionKeys | components/typeahead.js:364-455 | a key press emits onComplete only for End, Tab or a side arrow, with a visible hint and shift up |
| Typeahead.ClosingKeysNeverComplete | components/typeahead.js:394-402 | Enter and Escape never emit onComplete |
| Typeahead.VerticalArrowsNeverComplete | components/typeahead.js:403-446 | Up and Down never emit onComplete, whether they navigate, open the list or only reach onKeyDown |
| Typeahead.UnhandledKeyOnlyReports | components/typeahead.js:449-454 | any key the dispatch does not handle leaves the state unchanged and emits exactly onKeyDown with the active value and the selection |
| Typeahead.HandleChangeIntended | components/typeahead.js:291-326 | corrected handler: the hint is visible iff the hint rule holds for the typed text; every other field and every effect is as in handleChange |
| Typeahead.CompletionBySideArrow | components/typeahead.js:384-393 | a side arrow never suppresses the default or changes state; without the ref and with a visible hint and shift up it only throws; otherwise the effects are exactly onComplete(resolved hint) when hint visible, no shift, caret at end and the arrow points forward, then onKeyDown |
| Typeahead.ClosingKeys | components/typeahead.js:394-402 | Enter and Escape hide hint and dropdown, keep the selection, announce a close iff it was open; the first effect is a focus request iff the key is Enter and the input ref is attached |
| Typeahead.VerticalArrowWithoutOptions | components/typeahead.js:403-405 | Up/Down with no options leave the state untouched and only reach onKeyDown |
| Typeahead.VerticalArrowOpensDropdown | components/typeahead.js:403-411 | Up/Down with options and a closed dropdown open it, recompute the hint, keep the selection, and still reach onKeyDown |
| Typeahead.VerticalArrowNavigates | components/typeahead.js:406-446 | Up/Down with options and the dropdown open recompute the hint, move the selection one wrap-around step, suppress the default and onKeyDown; the effects are exactly preventDefault followed by the post-navigation step on the new selection |
| Typeahead.NavigationSavesInputOnce | components/typeahead.js:415-443 | navigating onto an option first saves the held input; onOptionChange reports the option, or the saved input at -1 |
| Typeahead.CloseIsIdempotent | components/typeahead.js:399-402 | a second Escape or outside interaction changes nothing and announces no second close |
| Typeahead.TabScenario | components/typeahead.js:377-383 | Tab with a visible hint suppresses the default and completes; with shift it only reaches onKeyDown |
| Typeahead.SideArrowWithoutInputRefThrows | components/typeahead.js:386 | without the input ref, ArrowRight on ltr text with a visible hint throws and emits nothing else; with the ref it completes and reaches onKeyDown |
| Session.InitialIsValid | components/typeahead.js:73-79 | the mount state has nothing selected, nothing shown, and satisfies the session invariant |
| Session.HandlePreservesValid | components/typeahead.js:318-492 | every handler keeps the selection in range and a visible hint consistent with the hint rule |
| Session.RunPreservesValid | components/typeahead.js:318-492 | any sequence of events from a valid state ends in a valid state |
| Session.NoHintForEmptyInputInAnyRun | components/typeahead.js:291-304 | from mount with an empty held input, no sequence of events shows the hint |
| Session.CompletionOnlyOnKeyDown | components/typeahead.js:377-393 | no event but a key press (End, Tab or a side arrow, with a visible hint and shift up) ever emits onComplete |
| Session.StaleHintAfterClearingInput | components/typeahead.js:291-326 | as written: deleting a held value whose hint shows leaves the hint flag set, which breaks the hint rule for the emptied value, and the next Tab suppresses its default and completes |
| Session.IntendedChangeKeepsHintRule | components/typeahead.js:291-326 | with the corrected handler, the state after any edit satisfies the invariant for the typed value, and Tab on an emptied input only reaches onKeyDown |
| Session.SavedInputIsKept | components/typeahead.js:427-429 | once an input value is saved, no sequence of events overwrites or clears it |
| Session.HandleSignals | components/typeahead.js:267-289 | one event announces a dropdown change exactly when it changes visibility, and then once |
| Session.ChangeSignals | components/typeahead.js:318-326 | typing announces an open exactly when the dropdown was closed, and nothing else |
| Session.FocusSignals | components/typeahead.js:335-340 | focus announces an open exactly when the dropdown was closed, and nothing else |
| Session.OptionClickSignals | components/typeahead.js:457-466 | an option click announces a close exactly when the dropdown was open, and nothing else |
| Session.KeyDownSignals | components/typeahead.js:364-455 | a key press announces a dropdown change exactly when it changes visibility |
| Session.CompletionKeysAreQuiet | components/typeahead.js:377-393 | completion keys and unhandled keys change no state and emit no dropdown callback |
| Session.ClosingKeySignals | components/typeahead.js:394-402 | Enter and Escape announce a close exactly when the dropdown was open |
| Session.VerticalArrowSignals | components/typeahead.js:403-446 | Up/Down announce an open exactly when they open a closed dropdown |
| Session.AfterNavigateIsQuiet | components/typeahead.js:415-443 | the post-navigation step emits no dropdown callback |
| Session.RunSignalsTrackVisibility | components/typeahead.js:267-289 | over any run, onDropdownOpen and onDropdownClose strictly alternate and the last matches the final visibility |
| Session.OutsidePressScenario | components/typeahead.js:484-492 | an outside press on an open dropdown closes it with exactly one onDropdownClose |

## Left out

- Session.NoHintForEmptyInputInAnyRun: holds only while the held value stays empty throughout the run. In a real session the parent writes back each typed value, and the stale-hint case in Findings shows the hint can stay visible for an empty input.
- Typeahead.ScrollTarget: `offsetTop` is measured from the row's offset parent. The visibility conclusion assumes the option list is that offset parent, so that `offsetTop` is a position inside the scrolled list.

- Rendering: `render`, `renderInput`, `renderDropdown` and the two aria message renderers are presentation only.
- The propTypes and default-prop plumbing is left out. The defaults that matter are modelled as the `Props` fields.
- Listener registration and removal on mount and unmount (components/typeahead.js:81-109) is host I/O. A window click or focus reaches the model as a `WindowEvent`.
- DOM focus via `ReactDOM.findDOMNode` (components/typeahead.js:328-333) is host I/O. When the input ref is attached, the focus call is emitted as the `FocusInput` effect; without the ref it emits nothing, as the guard at line 330 does. Focus events the host might fire in response are not replayed.
- The caret query `isCursorAtEnd` belongs to the `Input` collaborator and is given as a boolean in the key event.
- DOM containment (`contains`) and the target-is-window test are not modelled. They are given as booleans.
- Layout reads (`offsetTop`, `clientHeight`, `scrollTop`) are not modelled. They are given as a `Layout` record measured after the re-render. The write to `scrollTop` is the `ScrollTo` effect.
- The hint resolver, `utils/get_text_direction`, `Input`, `AriaStatus` and the option template are not part of this model. The first two are uninterpreted function values in `Props`. Any direction other than 'ltr' or 'rtl' is `Neutral`.
- React's asynchronous `setState` scheduling is not modelled as concurrency. Each handler is one atomic transition with an ordered effect list.
- The host event object that accompanies each callback is not carried. Only the data the component computes is: the typed text, the hint, the option and the index.
- `onBlur`, `onSelect`, `onKeyUp` and `onKeyPress` are wired straight to the input with no logic of the component's own.
- A change of props between events (for example a parent overwriting the input value or shrinking the list) is not an event in `Session`. Each handler accepts any props, but the session invariants are stated for fixed props.
- Hint.SliceFrom: positions and lengths are counted in Unicode code points (Dafny's `|s|`), not in the UTF-16 code units that JavaScript's `.length` and `.slice` use. Strings with characters outside the Basic Multilingual Plane can give different results.
- Hint.IsHintVisible: compares code-point lengths where line 299 compares UTF-16 lengths. The two differ only for characters outside the Basic Multilingual Plane when the resolver's hint does not start with the input.
- TypeaheadState.ShowHint: inherits the code-point lengths of `Hint.IsHintVisible` instead of UTF-16 lengths.

## Findings

| source | as written | input that shows it | evidently intended | confidence | as-written member | corrected member |
|---|---|---|---|---|---|---|
| components/typeahead.js:291-326 | `handleChange` calls `showHint`, which reads `props.inputValue`: the value before the edit, because the parent has not yet passed the new text back | held value "a" with hint "apple" (hint shown), then the user deletes the "a": the hint stays visible for the empty input, and the next Tab calls `preventDefault` and `onComplete` | the hint is decided from the typed text, so an empty input never shows a hint and Tab keeps its default | medium, not executed | Session.StaleHintAfterClearingInput | Typeahead.HandleChangeIntended, proved in Session.IntendedChangeKeepsHintRule |

=== FILE: hint.dfy ===
/** The hint-visibility policy: when the inline completion is shown ahead of the
    cursor. The hint text itself comes from a caller-supplied resolver. */
module Hint {

  /** JavaScript's `s.slice(n)` for a non-negative `n`: the part of `s` after
      position `n`, empty when `n` is at or past the end. */
  function SliceFrom(s: string, n: nat): (r: string)
    ensures |r| == if n < |s| then |s| - n else 0
    ensures n <= |s| ==> s == s[..n] + r
  {
    if n <= |s| then s[n..] else []
  }

  /** The rule as the component evaluates it: the input is non-empty and the part of
      the hint beyond the input's length is non-empty. Equivalently, the hint is
      strictly longer than a non-empty input. */
  function IsHintVisible(inputValue: string, hint: string): (r: bool)
    ensures r <==> |inputValue| > 0 && |hint| > |inputValue|
  {
    |inputValue| > 0 && |SliceFrom(hint, |inputValue|)| > 0
  }

  /** A hint is never shown for an empty input, whatever the resolver proposes. */
  lemma NoHintForEmptyInput(hint: string)
    ensures !IsHintVisible("", hint)
  {
  }

  /** The rule only compares lengths. When the resolver keeps its contract (its
      result starts with the input), a visible hint is the input followed by a
      non-empty completion, which is what a completion commits. */
  lemma VisibleHintExtendsInput(inputValue: string, hint: string)
    requires inputValue <= hint
    requires IsHintVisible(inputValue, hint)
    ensures hint == inputValue + SliceFrom(hint, |inputValue|)
    ensures |SliceFrom(hint, |inputValue|)| > 0
  {
  }

  /** Options "apple" and "apricot" with the resolver proposing "apple": input "ap"
      shows the hint, input "apple" does not (nothing is left to complete). */
  lemma AppleScenario()
    ensures IsHintVisible("ap", "apple")
    ensures !IsHintVisible("apple", "apple")
  {
  }
}

=== FILE: navigation.dfy ===
/** The wrap-around index arithmetic behind the arrow keys. The selection ranges
    over -1 .. count-1, where -1 means "no option selected: the raw input text is
    the active value". */
module Navigation {

  /** ArrowUp moves the selection by -1, ArrowDown by +1. */
  datatype Direction = Up | Down

  function Delta(d: Direction): int {
    if d == Up then -1 else 1
  }

  /** The selection range of a list of `count` options. */
  predicate InRange(index: int, count: nat) {
    -1 <= index < count
  }

  /** A positive multiple of a positive modulus is at least the modulus. */
  lemma MultipleAtLeast(k: int, m: int)
    requires k >= 1 && m > 0
    ensures k * m >= m
  {
    assert k * m == (k - 1) * m + m;
    assert (k - 1) * m >= 0;
  }

  /** Euclidean remainder is determined by any decomposition a == q * m + b with 0 <= b < m. */
  lemma ModOfDecomposition(a: int, q: int, m: int, b: int)
    requires 0 < m && 0 <= b < m
    requires a == q * m + b
    ensures a % m == b
  {
    var q', b' := a / m, a % m;
    assert a == q' * m + b';
    assert (q - q') * m == b' - b by {
      assert q * m - q' * m == (q - q') * m;
    }
    if q > q' {
      MultipleAtLeast(q - q', m);
    } else if q < q' {
      MultipleAtLeast(q' - q, m);
    }
  }

  /** One step of `navigate`: add the direction, then send an overflow past the last
      option to -1 and an underflow below -1 to the last option. The result is in
      range whatever the starting index: the component never reclamps a stale index,
      but its two branches catch both overflow and underflow. */
  function Navigate(index: int, count: nat, d: Direction): (r: int)
    ensures InRange(r, count)
  {
    var minIndex := -1;
    var maxIndex := count - 1;
    var next := index + Delta(d);
    if next > maxIndex then minIndex
    else if next < minIndex then maxIndex
    else next
  }

  /** From an index in range, one step is addition modulo count + 1 on the shifted
      position index + 1 (the positions 0 .. count standing for -1 .. count-1). */
  lemma NavigateIsModular(index: int, count: nat, d: Direction)
    requires InRange(index, count)
    ensures Navigate(index, count, d) + 1 == (index + 1 + Delta(d)) % (count + 1)
  {
    var next := index + Delta(d);
    var r := Navigate(index, count, d);
    if next > count - 1 {
      ModOfDecomposition(next + 1, 1, count + 1, r + 1);
    } else if next < -1 {
      ModOfDecomposition(next + 1, -1, count + 1, r + 1);
    } else {
      ModOfDecomposition(next + 1, 0, count + 1, r + 1);
    }
  }

  /** `k` consecutive presses of the same arrow key with the list open. */
  function NavigateTimes(index: int, count: nat, d: Direction, k: nat): int
  {
    if k == 0 then index else Navigate(NavigateTimes(index, count, d, k - 1), count, d)
  }

  /** Adding a multiple of the modulus does not change the remainder. */
  lemma ModAddMultiple(x: int, y: int, m: int)
    requires 0 < m
    ensures (x % m + y) % m == (x + y) % m
  {
    var b := (x + y) % m;
    ModOfDecomposition(x % m + y, (x + y) / m - x / m, m, b);
  }

  /** Repeated navigation in one direction is addition modulo count + 1. */
  lemma {:induction false} NavigateTimesIsModular(index: int, count: nat, d: Direction, k: nat)
    requires InRange(index, count)
    ensures NavigateTimes(index, count, d, k) + 1 == (index + 1 + k * Delta(d)) % (count + 1)
  {
    if k == 0 {
      ModOfDecomposition(index + 1, 0, count + 1, index + 1);
    } else {
      NavigateTimesIsModular(index, count, d, k - 1);
      var j := NavigateTimes(index, count, d, k - 1);
      assert InRange(j, count);
      NavigateIsModular(j, count, d);
      ModAddMultiple(index + 1 + (k - 1) * Delta(d), Delta(d), count + 1);
      assert index + 1 + (k - 1) * Delta(d) + Delta(d) == index + 1 + k * Delta(d);
    }
  }

  /** Pressing ArrowDown from "no selection" walks -1, 0, 1, ..., count-1, -1, ... */
  lemma DownFromNoSelection(count: nat, k: nat)
    ensures NavigateTimes(-1, count, Down, k) == k % (count + 1) - 1
  {
    NavigateTimesIsModular(-1, count, Down, k);
  }

  /** Either arrow key cycles with period count + 1 from any index in range. */
  lemma NavigatePeriod(index: int, count: nat, d: Direction)
    requires InRange(index, count)
    ensures NavigateTimes(index, count, d, count + 1) == index
  {
    NavigateTimesIsModular(index, count, d, count + 1);
    ModOfDecomposition(index + 1 + (count + 1) * Delta(d), Delta(d), count + 1, index + 1);
  }

  /** ArrowUp undoes ArrowDown and ArrowDown undoes ArrowUp on every index in range. */
  lemma NavigateInverse(index: int, count: nat)
    requires InRange(index, count)
    ensures Navigate(Navigate(index, count, Down), count, Up) == index
    ensures Navigate(Navigate(index, count, Up), count, Down) == index
  {
  }

  /** The two wrap points: Down from the last option leaves the list, Up from
      "no selection" enters it at the last option. */
  lemma NavigateWrapPoints(count: nat)
    ensures Navigate(count - 1, count, Down) == -1
    ensures Navigate(-1, count, Up) == count - 1
  {
  }

  /** Three options, no selection: three presses of ArrowDown select 0, 1, 2; a fourth
      returns to no selection. */
  lemma ThreeOptionsScenario()
    ensures NavigateTimes(-1, 3, Down, 1) == 0
    ensures NavigateTimes(-1, 3, Down, 2) == 1
    ensures NavigateTimes(-1, 3, Down, 3) == 2
    ensures NavigateTimes(-1, 3, Down, 4) == -1
  {
  }
}

=== FILE: session.dfy ===
/** A session of the typeahead under fixed props: the events the component reacts
    to, one dispatch per event, and runs of events. The invariants here hold across
    any sequence of handler calls while the parent keeps the same props. */
module Session {
  import opened Navigation
  import opened Hint
  import opened TypeaheadState
  import opened Typeahead

  /** The events the component subscribes to: typing, focus and click on the input,
      key presses, option clicks, hovering over and leaving the option list, and
      window-wide clicks or focus changes. */
  datatype Event =
    | Change(typed: string)
    | Focus
    | InputClick
    | KeyDown(press: KeyEvent, layout: Layout)
    | OptionClick(index: int)
    | OptionMouseOver(index: int)
    | MouseOut
    | WindowEvent(targetIsWindow: bool, targetInside: bool)

  function Handle<T>(p: Props<T>, s: State, ev: Event): Step<T> {
    match ev
    case Change(typed) => HandleChange(p, s, typed)
    case Focus => HandleFocus(p, s)
    case InputClick => HandleClick(p, s)
    case KeyDown(press, layout) => HandleKeyDown(p, s, press, layout)
    case OptionClick(i) => HandleOptionClick(p, s, i)
    case OptionMouseOver(i) => HandleOptionMouseOver(p, s, i)
    case MouseOut => HandleMouseOut(p, s)
    case WindowEvent(targetIsWindow, targetInside) => HandleWindowClose(p, s, targetIsWindow, targetInside)
  }

  /** Events handled one after another; the effects of all of them, in order. */
  function Run<T>(p: Props<T>, s: State, evs: seq<Event>): Step<T>
    decreases |evs|
  {
    if |evs| == 0 then Step(s, [])
    else
      var first := Handle(p, s, evs[0]);
      var rest := Run(p, first.state, evs[1..]);
      Step(rest.state, first.effects + rest.effects)
  }

  /** Option events carry an index of a rendered row, so it lies within the list. */
  predicate FromRenderedRow<T>(p: Props<T>, ev: Event) {
    (ev.OptionClick? || ev.OptionMouseOver?) ==> 0 <= ev.index < |p.options|
  }

  /** The state invariant under fixed props: the selection is in range and a visible
      hint satisfies the hint rule for the held input. */
  predicate Valid<T>(p: Props<T>, s: State) {
    && InRange(s.selectedIndex, |p.options|)
    && (s.isHintVisible ==> IsHintVisible(p.inputValue, ResolvedHint(p)))
  }

  lemma InitialIsValid<T>(p: Props<T>)
    ensures Valid(p, Initial())
    ensures !Initial().isHintVisible && !Initial().isDropdownVisible
  {
  }

  lemma HandlePreservesValid<T>(p: Props<T>, s: State, ev: Event)
    requires Valid(p, s) && FromRenderedRow(p, ev)
    ensures Valid(p, Handle(p, s, ev).state)
  {
  }

  /** Every run of rendered events from a valid state ends in a valid state. */
  lemma {:induction false} RunPreservesValid<T>(p: Props<T>, s: State, evs: seq<Event>)
    requires Valid(p, s)
    requires forall k :: 0 <= k < |evs| ==> FromRenderedRow(p, evs[k])
    ensures Valid(p, Run(p, s, evs).state)
    decreases |evs|
  {
    if |evs| > 0 {
      HandlePreservesValid(p, s, evs[0]);
      RunPreservesValid(p, Handle(p, s, evs[0]).state, evs[1..]);
    }
  }

  /** From mount, with an empty held input, the hint is never shown. */
  lemma NoHintForEmptyInputInAnyRun<T>(p: Props<T>, evs: seq<Event>)
    requires p.inputValue == ""
    requires forall k :: 0 <= k < |evs| ==> FromRenderedRow(p, evs[k])
    ensures !Run(p, Initial(), evs).state.isHintVisible
  {
    RunPreservesValid(p, Initial(), evs);
  }

  /** Only a key press ever emits onComplete: End, Tab or a side arrow, with a visible
      hint and shift up. */
  lemma CompletionOnlyOnKeyDown<T>(p: Props<T>, s: State, ev: Event)
    ensures HasComplete(Handle(p, s, ev).effects) ==>
      && ev.KeyDown? && s.isHintVisible && !ev.press.shiftKey
      && (ev.press.key == End || ev.press.key == Tab || ev.press.key == ArrowLeft || ev.press.key == ArrowRight)
  {
    var r := Handle(p, s, ev);
    if ev.KeyDown? {
      CompletionOnlyByCompletionKeys(p, s, ev.press, ev.layout);
    } else {
      assert forall k :: 0 <= k < |r.effects| ==> !r.effects[k].OnComplete?;
    }
  }

  /** The hint flag is decided from the value held before the edit. Deleting the last
      character of a held value whose hint is showing leaves the flag set: once the
      parent writes the empty text back as the held value, the state breaks the hint
      rule, and the next Tab suppresses its default and completes. */
  lemma StaleHintAfterClearingInput<T>(p: Props<T>, s: State, l: Layout)
    requires IsHintVisible(p.inputValue, ResolvedHint(p))
    ensures var after := HandleChange(p, s, "").state;
      var cleared := p.(inputValue := "");
      && after.isHintVisible
      && !Valid(cleared, after)
      && HandleKeyDown(cleared, after, KeyEvent(Tab, false, true), l).effects[..2]
           == [PreventDefault, OnComplete(ResolvedHint(cleared))]
  {
  }

  /** With the hint decided from the typed text, the state after an edit satisfies the
      invariant for the props the parent writes back, whatever was held before; in
      particular an emptied input never keeps a hint, and Tab is not swallowed. */
  lemma IntendedChangeKeepsHintRule<T>(p: Props<T>, s: State, typed: string, l: Layout)
    ensures Valid(p.(inputValue := typed), HandleChangeIntended(p, s, typed).state)
    ensures typed == "" ==>
      var after := HandleChangeIntended(p, s, typed).state;
      && !after.isHintVisible
      && HandleKeyDown(p.(inputValue := typed), after, KeyEvent(Tab, false, true), l)
           == Step(after, [OnKeyDown(Text(""), -1)])
  {
  }

  /** Once an input value has been saved, no handler ever overwrites or clears it. */
  lemma {:induction false} SavedInputIsKept<T>(p: Props<T>, s: State, evs: seq<Event>)
    requires s.previousInputValue.Some?
    ensures Run(p, s, evs).state.previousInputValue == s.previousInputValue
    decreases |evs|
  {
    if |evs| > 0 {
      var first := Handle(p, s, evs[0]);
      assert first.state.previousInputValue == s.previousInputValue;
      SavedInputIsKept(p, first.state, evs[1..]);
    }
  }

  /** The dropdown callbacks in an effect list, in order: true for onDropdownOpen,
      false for onDropdownClose. */
  function Signals<T>(effects: seq<Effect<T>>): seq<bool>
    decreases |effects|
  {
    if |effects| == 0 then []
    else
      var head := match effects[0]
        case OnDropdownOpen => [true]
        case OnDropdownClose => [false]
        case _ => [];
      head + Signals(effects[1..])
  }

  lemma {:induction false} SignalsConcat<T>(a: seq<Effect<T>>, b: seq<Effect<T>>)
    ensures Signals(a + b) == Signals(a) + Signals(b)
    decreases |a|
  {
    if |a| == 0 {
      assert a + b == b;
    } else {
      assert (a + b)[0] == a[0];
      assert (a + b)[1..] == a[1..] + b;
      SignalsConcat(a[1..], b);
    }
  }

  /** Each signal flips the visibility it starts from: an open only follows a closed
      dropdown and a close only follows an open one. */
  predicate Alternating(signals: seq<bool>, visible: bool)
    decreases |signals|
  {
    |signals| == 0 || (signals[0] == !visible && Alternating(signals[1..], signals[0]))
  }

  /** The visibility the signals leave behind. */
  function Settle(signals: seq<bool>, visible: bool): bool {
    if |signals| == 0 then visible else signals[|signals| - 1]
  }

  lemma {:induction false} AlternatingConcat(a: seq<bool>, b: seq<bool>, visible: bool)
    requires Alternating(a, visible) && Alternating(b, Settle(a, visible))
    ensures Alternating(a + b, visible)
    ensures Settle(a + b, visible) == Settle(b, Settle(a, visible))
    decreases |a|
  {
    if |a| == 0 {
      assert a + b == b;
    } else {
      assert (a + b)[0] == a[0];
      assert (a + b)[1..] == a[1..] + b;
      assert Settle(a[1..], a[0]) == Settle(a, visible);
      AlternatingConcat(a[1..], b, a[0]);
      if |b| == 0 {
        assert a + b == a;
      } else {
        assert (a + b)[|a + b| - 1] == b[|b| - 1];
      }
    }
  }

  /** One event announces a dropdown change exactly when it changes the visibility, and
      then exactly once. */
  lemma HandleSignals<T>(p: Props<T>, s: State, ev: Event)
    ensures var r := Handle(p, s, ev);
      Signals(r.effects) == if r.state.isDropdownVisible == s.isDropdownVisible then [] else [r.state.isDropdownVisible]
  {
    match ev
    case Change(typed) => ChangeSignals(p, s, typed);
    case Focus => FocusSignals(p, s);
    case InputClick =>
    case KeyDown(press, l) => KeyDownSignals(p, s, press, l);
    case OptionClick(i) => OptionClickSignals(p, s, i);
    case OptionMouseOver(i) =>
    case MouseOut =>
    case WindowEvent(_, _) =>
  }

  /** Typing announces an open exactly when the dropdown was closed. */
  lemma ChangeSignals<T>(p: Props<T>, s: State, typed: string)
    ensures Signals(HandleChange(p, s, typed).effects) == if s.isDropdownVisible then [] else [true]
  {
    var r := HandleChange(p, s, typed);
    var shown: seq<Effect<T>> := if s.isDropdownVisible then [] else [OnDropdownOpen];
    SignalsConcat<T>([OnChange(typed)], shown);
  }

  /** Focus announces an open exactly when the dropdown was closed. */
  lemma FocusSignals<T>(p: Props<T>, s: State)
    ensures Signals(HandleFocus(p, s).effects) == if s.isDropdownVisible then [] else [true]
  {
    var shown: seq<Effect<T>> := if s.isDropdownVisible then [] else [OnDropdownOpen];
    SignalsConcat<T>([OnFocus], shown);
  }

  /** An option click announces a close exactly when the dropdown was open. */
  lemma OptionClickSignals<T>(p: Props<T>, s: State, i: int)
    ensures Signals(HandleOptionClick(p, s, i).effects) == if s.isDropdownVisible then [false] else []
  {
    var before := FocusRequest(p) + [OnOptionClick(Lookup(p.options, i), i)];
    var closed: seq<Effect<T>> := if s.isDropdownVisible then [OnDropdownClose] else [];
    SignalsConcat<T>(before, closed);
    QuietSignals(before);
  }

  /** Effects that contain no dropdown callback carry no signal. */
  lemma {:induction false} QuietSignals<T>(effects: seq<Effect<T>>)
    requires forall k :: 0 <= k < |effects| ==> !effects[k].OnDropdownOpen? && !effects[k].OnDropdownClose?
    ensures Signals(effects) == []
    decreases |effects|
  {
    if |effects| > 0 {
      QuietSignals(effects[1..]);
    }
  }

  lemma KeyDownSignals<T>(p: Props<T>, s: State, e: KeyEvent, l: Layout)
    ensures var r := HandleKeyDown(p, s, e, l);
      Signals(r.effects) == if r.state.isDropdownVisible == s.isDropdownVisible then [] else [r.state.isDropdownVisible]
  {
    if IsVerticalArrow(e.key) {
      VerticalArrowSignals(p, s, e, l);
    } else if e.key == Enter || e.key == Escape {
      ClosingKeySignals(p, s, e, l);
    } else {
      var r := HandleKeyDown(p, s, e, l);
      CompletionKeysAreQuiet(p, s, e, l);
      QuietSignals(r.effects);
    }
  }

  /** Keys other than the arrows up/down, Enter and Escape leave the state alone and
      emit no dropdown callback. */
  lemma CompletionKeysAreQuiet<T>(p: Props<T>, s: State, e: KeyEvent, l: Layout)
    requires !IsVerticalArrow(e.key) && e.key != Enter && e.key != Escape
    ensures var r := HandleKeyDown(p, s, e, l);
      && r.state == s
      && forall k :: 0 <= k < |r.effects| ==> !r.effects[k].OnDropdownOpen? && !r.effects[k].OnDropdownClose?
  {
  }

  lemma ClosingKeySignals<T>(p: Props<T>, s: State, e: KeyEvent, l: Layout)
    requires e.key == Enter || e.key == Escape
    ensures var r := HandleKeyDown(p, s, e, l);
      Signals(r.effects) == if r.state.isDropdownVisible == s.isDropdownVisible then [] else [r.state.isDropdownVisible]
  {
    var r := HandleKeyDown(p, s, e, l);
    ClosingKeys(p, s, e, l);
    var before: seq<Effect<T>> := (if e.key == Enter then FocusRequest(p) else [])
                                  + [OnKeyDown(ActiveData(p, s.selectedIndex), s.selectedIndex)];
    QuietThenClose(before, s.isDropdownVisible);
  }

  /** Quiet effects followed by a close that fires only from open carry exactly that
      close. */
  lemma QuietThenClose<T>(before: seq<Effect<T>>, shown: bool)
    requires forall k :: 0 <= k < |before| ==> !before[k].OnDropdownOpen? && !before[k].OnDropdownClose?
    ensures Signals(before + (if shown then [OnDropdownClose] else [])) == if shown then [false] else []
  {
    SignalsConcat<T>(before, if shown then [OnDropdownClose] else []);
    QuietSignals(before);
  }

  lemma VerticalArrowSignals<T>(p: Props<T>, s: State, e: KeyEvent, l: Layout)
    requires IsVerticalArrow(e.key)
    ensures var r := HandleKeyDown(p, s, e, l);
      Signals(r.effects) == if r.state.isDropdownVisible == s.isDropdownVisible then [] else [r.state.isDropdownVisible]
  {
    var r := HandleKeyDown(p, s, e, l);
    if |p.options| == 0 {
      VerticalArrowWithoutOptions(p, s, e, l);
      QuietSignals(r.effects);
    } else if s.isDropdownVisible {
      VerticalArrowNavigates(p, s, e, l);
      var moved := s.(selectedIndex := r.state.selectedIndex, isHintVisible := r.state.isHintVisible);
      SignalsConcat([PreventDefault], AfterNavigate(p, moved, l).effects);
      AfterNavigateIsQuiet(p, moved, l);
    } else {
      VerticalArrowOpensDropdown(p, s, e, l);
      SignalsConcat([PreventDefault, OnKeyDown(ActiveData(p, s.selectedIndex), s.selectedIndex)], [OnDropdownOpen]);
      QuietSignals([PreventDefault, OnKeyDown(ActiveData(p, s.selectedIndex), s.selectedIndex)]);
    }
  }

  /** The post-navigation step emits no dropdown callback. */
  lemma AfterNavigateIsQuiet<T>(p: Props<T>, s: State, l: Layout)
    ensures Signals(AfterNavigate(p, s, l).effects) == []
  {
    var r := AfterNavigate(p, s, l);
    if s.selectedIndex >= 0 {
      var target := ScrollTarget(l);
      var scroll: seq<Effect<T>> := if target.Some? then [ScrollTo(target.value)] else [];
      SignalsConcat(scroll, [OnOptionChange(Lookup(p.options, s.selectedIndex), s.selectedIndex)]);
    }
  }

  /** Over any run, onDropdownOpen and onDropdownClose strictly alternate, each one
      marking a real change of visibility, and the last of them matches the final
      visibility: they fire exactly once per transition. */
  lemma {:induction false} RunSignalsTrackVisibility<T>(p: Props<T>, s: State, evs: seq<Event>)
    ensures Alternating(Signals(Run(p, s, evs).effects), s.isDropdownVisible)
    ensures Settle(Signals(Run(p, s, evs).effects), s.isDropdownVisible) == Run(p, s, evs).state.isDropdownVisible
    decreases |evs|
  {
    if |evs| > 0 {
      var first := Handle(p, s, evs[0]);
      var rest := Run(p, first.state, evs[1..]);
      HandleSignals(p, s, evs[0]);
      RunSignalsTrackVisibility(p, first.state, evs[1..]);
      SignalsConcat(first.effects, rest.effects);
      AlternatingConcat(Signals(first.effects), Signals(rest.effects), s.isDropdownVisible);
    }
  }

  /** Outside press while the dropdown is open: it closes and onDropdownClose fires
      exactly once. */
  lemma OutsidePressScenario<T>(p: Props<T>, s: State)
    requires s.isDropdownVisible
    ensures var r := Run(p, s, [WindowEvent(false, false)]);
      !r.state.isDropdownVisible && r.effects == [OnDropdownClose]
  {
  }
}

=== FILE: state.dfy ===
/** The component's state, the read-only inputs it receives from its parent, the
    callbacks it emits, and the five state primitives every handler is built from. */
module TypeaheadState {
  import opened Wrappers
  import opened Hint

  /** Writing direction reported by the text-direction detector. Anything the
      detector reports other than left-to-right or right-to-left is `Neutral`. */
  datatype Dir = Ltr | Rtl | Neutral

  /** What the parent passes in: the value the input currently holds, the ordered
      option list, the hover-select switch, whether the parent attached a ref named
      `input` to the editable field through `inputProps` (the component does not
      attach one itself, so `refs.input` is otherwise undefined), and the two
      collaborators (the hint resolver and the text-direction detector), which are
      left uninterpreted. */
  datatype Props<!T> = Props(
    inputValue: string,
    options: seq<T>,
    hoverSelect: bool,
    hasInputRef: bool,
    handleHint: (string, seq<T>) -> string,
    textDirection: string -> Dir)

  /** The completion the resolver proposes for the held input and options. */
  function ResolvedHint<T>(p: Props<T>): string {
    p.handleHint(p.inputValue, p.options)
  }

  /** The React state (selection, hint and dropdown visibility) together with the
      two instance fields the handlers write: the last typed text and the input
      value saved when navigation first moved onto an option. */
  datatype State = State(
    selectedIndex: int,
    isHintVisible: bool,
    isDropdownVisible: bool,
    userInputValue: Option<string>,
    previousInputValue: Option<string>)

  /** A value handed to a callback: the raw input text, an option, or JavaScript's
      null/undefined (an index outside the list, or no saved input value). */
  datatype Payload<T> = Text(text: string) | Item(item: T) | Absent

  /** What a handler asks of its caller and the host, in the order it happens.
      The host event object passed along with every callback is left out.
      `ThrowsTypeError` ends a handler that calls a method on an undefined value;
      the error propagates to the host and nothing after it runs. */
  datatype Effect<T> =
    | PreventDefault
    | FocusInput
    | ScrollTo(offset: int)
    | OnChange(value: string)
    | OnFocus
    | OnInputClick
    | OnComplete(hint: string)
    | OnKeyDown(data: Payload<T>, index: int)
    | OnOptionClick(option: Payload<T>, index: int)
    | OnOptionChange(data: Payload<T>, index: int)
    | OnDropdownOpen
    | OnDropdownClose
    | ThrowsTypeError

  /** The outcome of one handler: the committed state and the emitted effects. */
  datatype Step<T> = Step(state: State, effects: seq<Effect<T>>)

  /** The state on mount: nothing selected, nothing shown, nothing recorded yet. */
  function Initial(): (r: State)
    ensures r.selectedIndex == -1
    ensures !r.isHintVisible && !r.isDropdownVisible
    ensures r.userInputValue.None? && r.previousInputValue.None?
  {
    State(-1, false, false, None, None)
  }

  /** JavaScript's `options[i]`: the option at `i`, or undefined outside the list. */
  function Lookup<T>(options: seq<T>, i: int): (r: Payload<T>)
    ensures r.Item? <==> 0 <= i < |options|
    ensures r.Item? ==> r.item == options[i]
    ensures !r.Text?
  {
    if 0 <= i < |options| then Item(options[i]) else Absent
  }

  /** Opens the dropdown. `p` is not read: the callback is the emitted `onDropdownOpen`
      effect, which follows the committed update and appears only when the dropdown was
      closed; opening an open dropdown is a no-op. */
  function ShowDropdown<T>(p: Props<T>, s: State): (r: Step<T>)
    ensures r.state.isDropdownVisible
    ensures r.state.(isDropdownVisible := s.isDropdownVisible) == s
    ensures r.effects == if s.isDropdownVisible then [] else [OnDropdownOpen]
  {
    if !s.isDropdownVisible then Step(s.(isDropdownVisible := true), [OnDropdownOpen])
    else Step(s, [])
  }

  /** Closes the dropdown. `p` is not read: the callback is the emitted `onDropdownClose`
      effect, which follows the committed update and appears only when the dropdown was
      open; closing a closed dropdown is a no-op. */
  function HideDropdown<T>(p: Props<T>, s: State): (r: Step<T>)
    ensures !r.state.isDropdownVisible
    ensures r.state.(isDropdownVisible := s.isDropdownVisible) == s
    ensures r.effects == if s.isDropdownVisible then [OnDropdownClose] else []
  {
    if s.isDropdownVisible then Step(s.(isDropdownVisible := false), [OnDropdownClose])
    else Step(s, [])
  }

  /** Recomputes hint visibility from the value the input currently holds (not from
      any newly typed text): visible iff that value is non-empty and the resolved
      hint is longer than it. */
  function ShowHint<T>(p: Props<T>, s: State): (r: State)
    ensures r.isHintVisible <==> |p.inputValue| > 0 && |ResolvedHint(p)| > |p.inputValue|
    ensures r.(isHintVisible := s.isHintVisible) == s
  {
    s.(isHintVisible := IsHintVisible(p.inputValue, ResolvedHint(p)))
  }

  /** Hides the hint; nothing else changes. */
  function HideHint(s: State): (r: State)
    ensures !r.isHintVisible
    ensures r.(isHintVisible := s.isHintVisible) == s
  {
    s.(isHintVisible := false)
  }

  /** Moves the selection to `index`, unchecked; nothing else changes. */
  function SetSelectedIndex(s: State, index: int): (r: State)
    ensures r.selectedIndex == index
    ensures r.(selectedIndex := s.selectedIndex) == s
  {
    s.(selectedIndex := index)
  }

  /** A second open, or a second close, changes nothing and emits nothing. */
  lemma DropdownIdempotent<T>(p: Props<T>, s: State)
    ensures ShowDropdown(p, ShowDropdown(p, s).state) == Step(ShowDropdown(p, s).state, [])
    ensures HideDropdown(p, HideDropdown(p, s).state) == Step(HideDropdown(p, s).state, [])
  {
  }

  /** Hiding a hint, or selecting the same index again, is a no-op the second time;
      selecting one index and then another is the same as selecting the second. */
  lemma HintAndSelectionWrites(s: State, i: int, j: int)
    ensures HideHint(HideHint(s)) == HideHint(s)
    ensures SetSelectedIndex(SetSelectedIndex(s, i), j) == SetSelectedIndex(s, j)
    ensures SetSelectedIndex(s, s.selectedIndex) == s
  {
  }

  /** Closing what was opened restores the state and emits exactly the open/close pair
      when, and only when, the dropdown started closed. */
  lemma ShowThenHide<T>(p: Props<T>, s: State)
    requires !s.isDropdownVisible
    ensures HideDropdown(p, ShowDropdown(p, s).state).state == s
    ensures ShowDropdown(p, s).effects + HideDropdown(p, ShowDropdown(p, s).state).effects
            == [OnDropdownOpen, OnDropdownClose]
  {
  }
}

=== FILE: typeahead.dfy ===
/** The event handlers of the typeahead, each one atomic transition from the state
    before the event to the committed state plus the ordered effects.

    Effect order follows the component: calls made while the handler runs come
    first, in the order the handler makes them; callbacks attached to a state update
    (onDropdownOpen, onDropdownClose and the post-navigation step) follow, after the
    update commits. Every read of the state inside a handler sees the state before
    the event; since each primitive writes its own field, composing the primitives
    in order yields exactly that. */
module Typeahead {
  import opened Wrappers
  import opened Navigation
  import opened Hint
  import opened TypeaheadState

  datatype Key = End | Tab | ArrowLeft | ArrowRight | Enter | Escape | ArrowUp | ArrowDown | OtherKey

  /** A key press: the key, whether shift is held, and whether the caret sits at the
      end of the input (the input collaborator's answer). */
  datatype KeyEvent = KeyEvent(key: Key, shiftKey: bool, cursorAtEnd: bool)

  /** Layout measured after the navigation re-render: the selected row's top offset
      and height, the dropdown's visible height and its current scroll offset. */
  datatype Layout = Layout(optionTop: int, optionHeight: int, dropdownHeight: int, scrollTop: int)

  /** The selected row lies wholly inside the dropdown scrolled to `offset`. */
  predicate RowVisible(l: Layout, offset: int) {
    offset <= l.optionTop && l.optionTop + l.optionHeight <= offset + l.dropdownHeight
  }

  /** The scroll-into-view rule: scroll the row to the top of the dropdown when its
      bottom edge passes the dropdown's height or its top is above the scroll offset.
      Whenever the row is not fully visible it scrolls; after the rule the row is fully
      visible (for a row no taller than the dropdown). The bottom edge is compared with
      the dropdown's height, not with scroll offset plus height, so a row that is
      already visible in a scrolled list can be scrolled to the top as well. */
  function ScrollTarget(l: Layout): (r: Option<int>)
    ensures r.Some? ==> r.value == l.optionTop
    ensures 0 <= l.scrollTop && !RowVisible(l, l.scrollTop) ==> r.Some?
    ensures 0 <= l.scrollTop && l.optionHeight <= l.dropdownHeight ==> RowVisible(l, r.GetOr(l.scrollTop))
    ensures l.scrollTop <= l.optionTop && l.optionTop + l.optionHeight <= l.dropdownHeight ==> r.None?
  {
    if l.optionTop + l.optionHeight > l.dropdownHeight || l.optionTop < l.scrollTop then Some(l.optionTop)
    else None
  }

  /** The bottom-edge test ignores the scroll offset: in a list scrolled down to 90, a
      row at 100 of height 20 inside a 50-high dropdown is fully visible, yet the rule
      scrolls it to its top again. */
  lemma VisibleRowRescrolledInScrolledList()
    ensures RowVisible(Layout(100, 20, 50, 90), 90)
    ensures ScrollTarget(Layout(100, 20, 50, 90)) == Some(100)
  {
  }

  /** The saved input value as the post-navigation callback passes it on. */
  function SavedInput<T>(saved: Option<string>): Payload<T> {
    match saved
    case Some(v) => Text(v)
    case None => Absent
  }

  /** The step that runs once navigation has committed, reading the new selection.
      On an option: the held input value is saved if nothing was saved yet, the row is
      scrolled into view, and onOptionChange receives that option. On "no selection":
      onOptionChange receives the saved input value. The saved value is never
      overwritten once present. */
  function AfterNavigate<T>(p: Props<T>, s: State, l: Layout): (r: Step<T>)
    ensures r.state.(previousInputValue := s.previousInputValue) == s
    ensures s.previousInputValue.Some? ==> r.state.previousInputValue == s.previousInputValue
    ensures s.previousInputValue.None? && s.selectedIndex >= 0 ==> r.state.previousInputValue == Some(p.inputValue)
    ensures s.selectedIndex < 0 ==> r.state == s
    ensures |r.effects| > 0
    ensures s.selectedIndex >= 0 ==>
      r.effects[|r.effects| - 1] == OnOptionChange(Lookup(p.options, s.selectedIndex), s.selectedIndex)
    ensures s.selectedIndex < 0 ==>
      r.effects == [OnOptionChange(SavedInput(s.previousInputValue), s.selectedIndex)]
    ensures ScrollTo(l.optionTop) in r.effects <==> s.selectedIndex >= 0 && ScrollTarget(l).Some?
    ensures s.selectedIndex >= 0 ==>
      r.effects == (if ScrollTarget(l).Some? then [ScrollTo(l.optionTop)] else [])
                   + [OnOptionChange(Lookup(p.options, s.selectedIndex), s.selectedIndex)]
  {
    var selectedIndex := s.selectedIndex;
    var previousInputValue := s.previousInputValue;
    if selectedIndex >= 0 then
      var saved := if previousInputValue.None? then Some(p.inputValue) else previousInputValue;
      var target := ScrollTarget(l);
      var scroll := if target.Some? then [ScrollTo(target.value)] else [];
      Step(s.(previousInputValue := saved),
           scroll + [OnOptionChange(Lookup(p.options, selectedIndex), selectedIndex)])
    else
      Step(s, [OnOptionChange(SavedInput(previousInputValue), selectedIndex)])
  }

  /** What the generic onKeyDown callback receives as the active value: the input
      text when nothing is selected, otherwise the option at the index (undefined for
      an index left stale by a shorter list). */
  function ActiveData<T>(p: Props<T>, index: int): (r: Payload<T>)
    ensures r.Text? <==> index < 0
    ensures r.Text? ==> r.text == p.inputValue
    ensures r.Item? <==> 0 <= index < |p.options|
    ensures r.Item? ==> r.item == p.options[index]
  {
    if index < 0 then Text(p.inputValue) else Lookup(p.options, index)
  }

  /** The arrow key points forward in the text's writing direction: only the two side
      arrows can, ArrowRight exactly for left-to-right text and ArrowLeft exactly for
      right-to-left text, and neither for a neutral direction. */
  function IsForwardArrow(dir: Dir, key: Key): (r: bool)
    ensures r ==> key == ArrowLeft || key == ArrowRight
    ensures key == ArrowRight ==> (r <==> dir == Ltr)
    ensures key == ArrowLeft ==> (r <==> dir == Rtl)
  {
    (dir == Ltr && key == ArrowRight) || (dir == Rtl && key == ArrowLeft)
  }

  /** For a left-to-right or right-to-left text exactly one side arrow completes; for a
      neutral text neither does. */
  lemma ForwardArrowIsUnique(dir: Dir)
    ensures dir == Neutral ==> !IsForwardArrow(dir, ArrowLeft) && !IsForwardArrow(dir, ArrowRight)
    ensures dir != Neutral ==> IsForwardArrow(dir, ArrowLeft) != IsForwardArrow(dir, ArrowRight)
  {
  }

  /** A side arrow with a visible hint and shift up asks the input ref whether the caret
      is at the end. Without a ref that call is on undefined and throws. */
  predicate ThrowsWithoutInputRef<T>(p: Props<T>, s: State, e: KeyEvent) {
    (e.key == ArrowLeft || e.key == ArrowRight) && s.isHintVisible && !e.shiftKey && !p.hasInputRef
  }

  /** `focus()` acts only when the input ref is attached. */
  function FocusRequest<T>(p: Props<T>): seq<Effect<T>> {
    if p.hasInputRef then [FocusInput] else []
  }

  predicate IsVerticalArrow(key: Key) {
    key == ArrowUp || key == ArrowDown
  }

  /** The one case in which a key press moves the selection and the generic onKeyDown
      callback is suppressed: an up/down arrow, a non-empty list, and a dropdown that
      was already open before the key press. */
  predicate Navigates<T>(p: Props<T>, s: State, key: Key) {
    IsVerticalArrow(key) && |p.options| > 0 && s.isDropdownVisible
  }

  ghost predicate HasKeyDown<T>(effects: seq<Effect<T>>) {
    exists k :: 0 <= k < |effects| && effects[k].OnKeyDown?
  }

  ghost predicate HasComplete<T>(effects: seq<Effect<T>>) {
    exists k :: 0 <= k < |effects| && effects[k].OnComplete?
  }

  /** Typing: the hint is recomputed from the value the input holds, the dropdown opens,
      the selection resets to none, onChange is forwarded and the typed text is recorded
      as the user's own input. */
  function HandleChange<T>(p: Props<T>, s: State, typed: string): (r: Step<T>)
    ensures r.state.selectedIndex == -1
    ensures r.state.isDropdownVisible
    ensures r.state.isHintVisible <==> IsHintVisible(p.inputValue, ResolvedHint(p))
    ensures r.state.userInputValue == Some(typed)
    ensures r.state.previousInputValue == s.previousInputValue
    ensures |r.effects| > 0 && r.effects[0] == OnChange(typed)
    ensures OnDropdownOpen in r.effects <==> !s.isDropdownVisible
    ensures r.effects == [OnChange(typed)] + (if s.isDropdownVisible then [] else [OnDropdownOpen])
  {
    var hinted := ShowHint(p, s);
    var shown := ShowDropdown(p, hinted);
    var reset := SetSelectedIndex(shown.state, -1);
    Step(reset.(userInputValue := Some(typed)), [OnChange(typed)] + shown.effects)
  }

  /** `HandleChange` as evidently intended: the hint is decided by the typed text, the
      value the parent is about to hold, instead of the value held before the edit.
      Everything else is as in `HandleChange`. */
  function HandleChangeIntended<T>(p: Props<T>, s: State, typed: string): (r: Step<T>)
    ensures r.state.isHintVisible <==> IsHintVisible(typed, p.handleHint(typed, p.options))
    ensures r.state.(isHintVisible := s.isHintVisible) == HandleChange(p, s, typed).state.(isHintVisible := s.isHintVisible)
    ensures r.effects == HandleChange(p, s, typed).effects
  {
    HandleChange(p.(inputValue := typed), s, typed)
  }

  /** Focus gained: the dropdown opens (announced only if it was closed) and onFocus is
      forwarded; the hint and the selection are left alone. */
  function HandleFocus<T>(p: Props<T>, s: State): (r: Step<T>)
    ensures r.state.isDropdownVisible
    ensures r.state.(isDropdownVisible := s.isDropdownVisible) == s
    ensures |r.effects| > 0 && r.effects[0] == OnFocus
    ensures OnDropdownOpen in r.effects <==> !s.isDropdownVisible
    ensures r.effects == [OnFocus] + (if s.isDropdownVisible then [] else [OnDropdownOpen])
  {
    var shown := ShowDropdown(p, s);
    Step(shown.state, [OnFocus] + shown.effects)
  }

  /** Click in the input: hint visibility is recomputed and onInputClick is forwarded;
      nothing else changes. */
  function HandleClick<T>(p: Props<T>, s: State): (r: Step<T>)
    ensures r.state.isHintVisible <==> IsHintVisible(p.inputValue, ResolvedHint(p))
    ensures r.state.(isHintVisible := s.isHintVisible) == s
    ensures r.effects == [OnInputClick]
  {
    Step(ShowHint(p, s), [OnInputClick])
  }

  /** The keyboard dispatch. Only a navigation moves the selection; it keeps the
      selection in range; the generic onKeyDown is emitted exactly when no navigation
      happened and the handler did not throw, and then with the active value and the
      selection before the key press; a saved input value is never overwritten. */
  function HandleKeyDown<T>(p: Props<T>, s: State, e: KeyEvent, l: Layout): (r: Step<T>)
    ensures r.state.selectedIndex != s.selectedIndex ==> Navigates(p, s, e.key)
    ensures Navigates(p, s, e.key) ==> InRange(r.state.selectedIndex, |p.options|)
    ensures HasKeyDown(r.effects) <==> !Navigates(p, s, e.key) && !ThrowsWithoutInputRef(p, s, e)
    ensures !Navigates(p, s, e.key) && !ThrowsWithoutInputRef(p, s, e) ==>
      OnKeyDown(ActiveData(p, s.selectedIndex), s.selectedIndex) in r.effects
    ensures ThrowsWithoutInputRef(p, s, e) <==> ThrowsTypeError in r.effects
    ensures s.previousInputValue.Some? ==> r.state.previousInputValue == s.previousInputValue
    ensures r.state.userInputValue == s.userInputValue
  {
    var fallback: seq<Effect<T>> := [OnKeyDown(ActiveData(p, s.selectedIndex), s.selectedIndex)];
    assert fallback[0].OnKeyDown?;
    match e.key
    case End | Tab =>
      var complete := if s.isHintVisible && !e.shiftKey then [PreventDefault, OnComplete(ResolvedHint(p))] else [];
      assert (complete + fallback)[|complete|] == fallback[0];
      Step(s, complete + fallback)
    case ArrowLeft | ArrowRight =>
      if ThrowsWithoutInputRef(p, s, e) then Step(s, [ThrowsTypeError])
      else
      var complete :=
        if s.isHintVisible && !e.shiftKey && e.cursorAtEnd && IsForwardArrow(p.textDirection(p.inputValue), e.key)
        then [OnComplete(ResolvedHint(p))] else [];
      assert (complete + fallback)[|complete|] == fallback[0];
      Step(s, complete + fallback)
    case Enter =>
      var closed := HideDropdown(p, HideHint(s));
      var focus := FocusRequest(p);
      assert (focus + fallback + closed.effects)[|focus|] == fallback[0];
      Step(closed.state, focus + fallback + closed.effects)
    case Escape =>
      var closed := HideDropdown(p, HideHint(s));
      assert (fallback + closed.effects)[0] == fallback[0];
      Step(closed.state, fallback + closed.effects)
    case ArrowUp | ArrowDown =>
      if |p.options| == 0 then Step(s, fallback)
      else
        var shown := ShowDropdown(p, ShowHint(p, s));
        if s.isDropdownVisible then
          var dir := if e.key == ArrowUp then Up else Down;
          var moved := SetSelectedIndex(shown.state, Navigate(s.selectedIndex, |p.options|, dir));
          var after := AfterNavigate(p, moved, l);
          Step(after.state, [PreventDefault] + shown.effects + after.effects)
        else
          assert ([PreventDefault] + fallback + shown.effects)[1] == fallback[0];
          Step(shown.state, [PreventDefault] + fallback + shown.effects)
    case OtherKey =>
      Step(s, fallback)
  }

  /** Click on option `i`: focus goes back to the input (when its ref is attached),
      hint and dropdown close (onDropdownClose only if the dropdown was open), the
      option becomes the selection and onOptionClick receives it with its index. */
  function HandleOptionClick<T>(p: Props<T>, s: State, i: int): (r: Step<T>)
    ensures !r.state.isHintVisible && !r.state.isDropdownVisible
    ensures r.state.selectedIndex == i
    ensures r.state.userInputValue == s.userInputValue
    ensures r.state.previousInputValue == s.previousInputValue
    ensures FocusInput in r.effects <==> p.hasInputRef
    ensures var at := if p.hasInputRef then 1 else 0;
      |r.effects| > at && r.effects[at] == OnOptionClick(Lookup(p.options, i), i)
    ensures 0 <= i < |p.options| ==> OnOptionClick(Item(p.options[i]), i) in r.effects
    ensures OnDropdownClose in r.effects <==> s.isDropdownVisible
    ensures r.effects == FocusRequest(p) + [OnOptionClick(Lookup(p.options, i), i)]
                         + (if s.isDropdownVisible then [OnDropdownClose] else [])
  {
    var closed := HideDropdown(p, HideHint(s));
    var selected := SetSelectedIndex(closed.state, i);
    Step(selected, FocusRequest(p) + [OnOptionClick(Lookup(p.options, i), i)] + closed.effects)
  }

  /** Pointer over option `i`: with hover-select on, the option becomes the selection;
      with it off, nothing happens. Visibility is never touched and nothing is emitted. */
  function HandleOptionMouseOver<T>(p: Props<T>, s: State, i: int): (r: Step<T>)
    ensures r.state.selectedIndex == if p.hoverSelect then i else s.selectedIndex
    ensures r.state.(selectedIndex := s.selectedIndex) == s
    ensures r.effects == []
  {
    if p.hoverSelect then Step(SetSelectedIndex(s, i), []) else Step(s, [])
  }

  /** Pointer leaves the option list: with hover-select on, the selection returns to
      none; with it off, nothing happens. Visibility is never touched. */
  function HandleMouseOut<T>(p: Props<T>, s: State): (r: Step<T>)
    ensures r.state.selectedIndex == if p.hoverSelect then -1 else s.selectedIndex
    ensures r.state.(selectedIndex := s.selectedIndex) == s
    ensures r.effects == []
  {
    if p.hoverSelect then Step(SetSelectedIndex(s, -1), []) else Step(s, [])
  }

  /** A click or focus change anywhere in the window. The target being the window
      itself and the target lying inside the component's own subtree are given as
      booleans. An outside target closes hint and dropdown, announcing the close only if
      the dropdown was open; any other target changes nothing. `p` is not read: the
      close callback is the emitted effect. */
  function HandleWindowClose<T>(p: Props<T>, s: State, targetIsWindow: bool, targetInside: bool): (r: Step<T>)
    ensures targetIsWindow || targetInside ==> r == Step(s, [])
    ensures !targetIsWindow && !targetInside ==>
      && !r.state.isHintVisible && !r.state.isDropdownVisible
      && r.state.(isHintVisible := s.isHintVisible, isDropdownVisible := s.isDropdownVisible) == s
      && r.effects == (if s.isDropdownVisible then [OnDropdownClose] else [])
  {
    if !targetIsWindow && !targetInside then HideDropdown(p, HideHint(s))
    else Step(s, [])
  }

  // Properties of the keyboard dispatch, one key group at a time.

  /** End and Tab complete the hint exactly when it is visible and shift is not held:
      the default is suppressed and onComplete receives the resolver's hint. Nothing
      in the state changes, and onKeyDown follows with the active value. */
  lemma CompletionByEndOrTab<T>(p: Props<T>, s: State, e: KeyEvent, l: Layout)
    requires e.key == End || e.key == Tab
    ensures var r := HandleKeyDown(p, s, e, l);
      && r.state == s
      && (HasComplete(r.effects) <==> s.isHintVisible && !e.shiftKey)
      && (PreventDefault in r.effects <==> s.isHintVisible && !e.shiftKey)
      && (s.isHintVisible && !e.shiftKey ==> r.effects[1] == OnComplete(ResolvedHint(p)))
      && r.effects[|r.effects| - 1] == OnKeyDown(ActiveData(p, s.selectedIndex), s.selectedIndex)
      && r.effects == (if s.isHintVisible && !e.shiftKey then [PreventDefault, OnComplete(ResolvedHint(p))] else [])
                      + [OnKeyDown(ActiveData(p, s.selectedIndex), s.selectedIndex)]
  {
    var r := HandleKeyDown(p, s, e, l);
    var fallback: seq<Effect<T>> := [OnKeyDown(ActiveData(p, s.selectedIndex), s.selectedIndex)];
    if s.isHintVisible && !e.shiftKey {
      assert r.effects == [PreventDefault, OnComplete(ResolvedHint(p))] + fallback;
      assert r.effects[1].OnComplete?;
    } else {
      assert r.effects == fallback;
    }
  }

  /** The side arrows complete only when the hint is visible, shift is not held, the
      caret is at the end and the arrow points forward in the text's direction. They
      never suppress the default and never change the state. With a visible hint and
      shift up but no input ref attached, the caret query throws and neither onComplete
      nor onKeyDown is reached. */
  lemma CompletionBySideArrow<T>(p: Props<T>, s: State, e: KeyEvent, l: Layout)
    requires e.key == ArrowLeft || e.key == ArrowRight
    ensures var r := HandleKeyDown(p, s, e, l);
      && r.state == s
      && (HasComplete(r.effects) <==>
            p.hasInputRef && s.isHintVisible && !e.shiftKey && e.cursorAtEnd
            && IsForwardArrow(p.textDirection(p.inputValue), e.key))
      && PreventDefault !in r.effects
      && (HasComplete(r.effects) ==> r.effects[0] == OnComplete(ResolvedHint(p)))
      && (ThrowsWithoutInputRef(p, s, e) ==> r.effects == [ThrowsTypeError])
      && (!ThrowsWithoutInputRef(p, s, e) ==>
            r.effects == (if s.isHintVisible && !e.shiftKey && e.cursorAtEnd
                             && IsForwardArrow(p.textDirection(p.inputValue), e.key)
                          then [OnComplete(ResolvedHint(p))] else [])
                         + [OnKeyDown(ActiveData(p, s.selectedIndex), s.selectedIndex)])
  {
    var r := HandleKeyDown(p, s, e, l);
    var fallback: seq<Effect<T>> := [OnKeyDown(ActiveData(p, s.selectedIndex), s.selectedIndex)];
    if ThrowsWithoutInputRef(p, s, e) {
      assert r.effects == [ThrowsTypeError];
    } else if s.isHintVisible && !e.shiftKey && e.cursorAtEnd && IsForwardArrow(p.textDirection(p.inputValue), e.key) {
      assert r.effects == [OnComplete(ResolvedHint(p))] + fallback;
      assert r.effects[0].OnComplete?;
    } else {
      assert r.effects == fallback;
    }
  }

  /** Enter and Escape close hint and dropdown, keep the selection, and announce the
      close only if the dropdown was open. Enter also returns focus to the input first
      when its ref is attached. The generic onKeyDown still fires with the active value. */
  lemma ClosingKeys<T>(p: Props<T>, s: State, e: KeyEvent, l: Layout)
    requires e.key == Enter || e.key == Escape
    ensures var r := HandleKeyDown(p, s, e, l);
      && !r.state.isHintVisible
      && !r.state.isDropdownVisible
      && r.state.selectedIndex == s.selectedIndex
      && (OnDropdownClose in r.effects <==> s.isDropdownVisible)
      && OnKeyDown(ActiveData(p, s.selectedIndex), s.selectedIndex) in r.effects
      && ((e.key == Enter && p.hasInputRef) <==> r.effects[0] == FocusInput)
      && r.effects == (if e.key == Enter then FocusRequest(p) else [])
                      + [OnKeyDown(ActiveData(p, s.selectedIndex), s.selectedIndex)]
                      + (if s.isDropdownVisible then [OnDropdownClose] else [])
  {
  }

  /** Enter and Escape never complete. */
  lemma ClosingKeysNeverComplete<T>(p: Props<T>, s: State, e: KeyEvent, l: Layout)
    requires e.key == Enter || e.key == Escape
    ensures !HasComplete(HandleKeyDown(p, s, e, l).effects)
  {
    var r := HandleKeyDown(p, s, e, l);
    ClosingKeys(p, s, e, l);
    assert forall k :: 0 <= k < |r.effects| ==> !r.effects[k].OnComplete?;
  }

  /** Up and Down never complete, whether they navigate, open the list or do nothing. */
  lemma VerticalArrowsNeverComplete<T>(p: Props<T>, s: State, e: KeyEvent, l: Layout)
    requires IsVerticalArrow(e.key)
    ensures !HasComplete(HandleKeyDown(p, s, e, l).effects)
  {
    var r := HandleKeyDown(p, s, e, l);
    if Navigates(p, s, e.key) {
      VerticalArrowNavigates(p, s, e, l);
      var moved := s.(selectedIndex := r.state.selectedIndex, isHintVisible := r.state.isHintVisible);
      var after := AfterNavigate(p, moved, l);
      if moved.selectedIndex >= 0 {
        var target := ScrollTarget(l);
        var scroll: seq<Effect<T>> := if target.Some? then [ScrollTo(target.value)] else [];
        assert after.effects == scroll + [OnOptionChange(Lookup(p.options, moved.selectedIndex), moved.selectedIndex)];
      }
      assert forall k :: 0 <= k < |r.effects| ==> !r.effects[k].OnComplete?;
    } else if |p.options| == 0 {
      VerticalArrowWithoutOptions(p, s, e, l);
    } else {
      VerticalArrowOpensDropdown(p, s, e, l);
      assert forall k :: 0 <= k < |r.effects| ==> !r.effects[k].OnComplete?;
    }
  }

  /** Only End, Tab and the side arrows ever complete, and only with a visible hint and
      shift up. */
  lemma CompletionOnlyByCompletionKeys<T>(p: Props<T>, s: State, e: KeyEvent, l: Layout)
    ensures var r := HandleKeyDown(p, s, e, l);
      HasComplete(r.effects) ==>
        (e.key == End || e.key == Tab || e.key == ArrowLeft || e.key == ArrowRight) && s.isHintVisible && !e.shiftKey
  {
    if e.key == End || e.key == Tab {
      CompletionByEndOrTab(p, s, e, l);
    } else if e.key == ArrowLeft || e.key == ArrowRight {
      CompletionBySideArrow(p, s, e, l);
    } else if e.key == Enter || e.key == Escape {
      ClosingKeysNeverComplete(p, s, e, l);
    } else if IsVerticalArrow(e.key) {
      VerticalArrowsNeverComplete(p, s, e, l);
    } else {
      UnhandledKeyOnlyReports(p, s, e, l);
    }
  }

  /** Any key without a case of its own only reaches the generic onKeyDown. */
  lemma UnhandledKeyOnlyReports<T>(p: Props<T>, s: State, e: KeyEvent, l: Layout)
    requires e.key == OtherKey
    ensures HandleKeyDown(p, s, e, l) == Step(s, [OnKeyDown(ActiveData(p, s.selectedIndex), s.selectedIndex)])
  {
  }

  /** Up/Down with an empty list: nothing changes, only onKeyDown fires. */
  lemma VerticalArrowWithoutOptions<T>(p: Props<T>, s: State, e: KeyEvent, l: Layout)
    requires IsVerticalArrow(e.key) && |p.options| == 0
    ensures HandleKeyDown(p, s, e, l) == Step(s, [OnKeyDown(ActiveData(p, s.selectedIndex), s.selectedIndex)])
  {
  }

  /** Up/Down with options but the dropdown closed: the default is suppressed, the hint
      is recomputed and the dropdown opens; the selection stays where it was and
      onKeyDown fires with the active value. */
  lemma VerticalArrowOpensDropdown<T>(p: Props<T>, s: State, e: KeyEvent, l: Layout)
    requires IsVerticalArrow(e.key) && |p.options| > 0 && !s.isDropdownVisible
    ensures var r := HandleKeyDown(p, s, e, l);
      && r.state.isDropdownVisible
      && r.state.selectedIndex == s.selectedIndex
      && (r.state.isHintVisible <==> IsHintVisible(p.inputValue, ResolvedHint(p)))
      && r.effects == [PreventDefault, OnKeyDown(ActiveData(p, s.selectedIndex), s.selectedIndex), OnDropdownOpen]
  {
  }

  /** Up/Down with options and the dropdown already open: the selection moves one step
      with wrap-around, the default is suppressed, the generic onKeyDown is not emitted,
      and the post-navigation step reports the new selection. */
  lemma VerticalArrowNavigates<T>(p: Props<T>, s: State, e: KeyEvent, l: Layout)
    requires IsVerticalArrow(e.key) && |p.options| > 0 && s.isDropdownVisible
    ensures var r := HandleKeyDown(p, s, e, l);
      && r.state.selectedIndex == Navigate(s.selectedIndex, |p.options|, if e.key == ArrowUp then Up else Down)
      && r.state.isDropdownVisible
      && (r.state.isHintVisible <==> IsHintVisible(p.inputValue, ResolvedHint(p)))
      && !HasKeyDown(r.effects)
      && r.effects[0] == PreventDefault
      && OnDropdownOpen !in r.effects
      && r.effects == [PreventDefault]
           + AfterNavigate(p, s.(selectedIndex := r.state.selectedIndex, isHintVisible := r.state.isHintVisible), l).effects
  {
    var r := HandleKeyDown(p, s, e, l);
    var moved := Navigate(s.selectedIndex, |p.options|, if e.key == ArrowUp then Up else Down);
    var shown := ShowDropdown(p, ShowHint(p, s));
    var after := AfterNavigate(p, SetSelectedIndex(shown.state, moved), l);
    assert r.effects == [PreventDefault] + after.effects;
  }

  /** Navigating onto an option saves the held input value the first time only and
      reports the option; navigating back to "no selection" reports the saved value. */
  lemma NavigationSavesInputOnce<T>(p: Props<T>, s: State, e: KeyEvent, l: Layout)
    requires Navigates(p, s, e.key)
    ensures var r := HandleKeyDown(p, s, e, l);
      && (s.previousInputValue.None? && r.state.selectedIndex >= 0 ==> r.state.previousInputValue == Some(p.inputValue))
      && (r.state.selectedIndex < 0 ==> r.state.previousInputValue == s.previousInputValue)
      && (r.state.selectedIndex >= 0 ==>
            r.effects[|r.effects| - 1] == OnOptionChange(Item(p.options[r.state.selectedIndex]), r.state.selectedIndex))
      && (r.state.selectedIndex < 0 ==>
            r.effects[|r.effects| - 1] == OnOptionChange(SavedInput(s.previousInputValue), -1))
  {
  }

  /** A second Escape, or a second outside interaction, changes nothing further and
      announces no second close. */
  lemma CloseIsIdempotent<T>(p: Props<T>, s: State, e: KeyEvent, l: Layout)
    requires e.key == Escape
    ensures var once := HandleKeyDown(p, s, e, l).state;
      && HandleKeyDown(p, once, e, l).state == once
      && OnDropdownClose !in HandleKeyDown(p, once, e, l).effects
    ensures var once := HandleWindowClose(p, s, false, false).state;
      HandleWindowClose(p, once, false, false) == Step(once, [])
  {
  }

  /** Tab with a visible hint and no shift completes with the resolver's output and
      suppresses the default; with shift held it only reaches onKeyDown. */
  lemma TabScenario<T>(p: Props<T>, s: State, l: Layout)
    requires s.isHintVisible
    ensures HandleKeyDown(p, s, KeyEvent(Tab, false, true), l).effects[..2]
      == [PreventDefault, OnComplete(ResolvedHint(p))]
    ensures HandleKeyDown(p, s, KeyEvent(Tab, true, true), l)
      == Step(s, [OnKeyDown(ActiveData(p, s.selectedIndex), s.selectedIndex)])
  {
  }

  /** Without an input ref, ArrowRight on left-to-right text with a visible hint throws:
      the completion the ref-attached component makes is lost, and so is onKeyDown. */
  lemma SideArrowWithoutInputRefThrows<T>(p: Props<T>, s: State, l: Layout)
    requires s.isHintVisible && p.textDirection(p.inputValue) == Ltr
    ensures HandleKeyDown(p.(hasInputRef := false), s, KeyEvent(ArrowRight, false, true), l)
      == Step(s, [ThrowsTypeError])
    ensures HandleKeyDown(p.(hasInputRef := true), s, KeyEvent(ArrowRight, false, true), l).effects
      == [OnComplete(ResolvedHint(p)), OnKeyDown(ActiveData(p, s.selectedIndex), s.selectedIndex)]
  {
  }
}

=== FILE: wrappers.dfy ===
/** Optional values. `None` stands for the `null` the component keeps in its
    instance fields before anything has been recorded. */
module Wrappers {

  datatype Option<+T> = None | Some(value: T) {

    /** The carried value, or `default` when there is none. */
    function GetOr(default: T): T {
      match this
      case Some(v) => v
      case None => default
    }
  }
}
